=== FILE: README.md ===
# MicroSymfony Framework: service connection and auth gate, modelled in Dafny

This project models the two classes at the heart of the MicroSymfony framework's
inter-service calls.

- **`Connection`** (`src/Connection.php`) is the outbound side. A call builds the
  adapter options: the body, then the auth header carrying a token from the token
  manager, with the caller's headers merged over it. It makes one adapter call and
  classifies how that call ends. A 403 client error while cached tokens were allowed
  is retried once with `useCache = false`. Other client errors raise
  `ServiceUnavailableException` with the upstream `error` text or a fixed message.
  Any other `\Exception` raises `ServiceUnavailableException("Failed to connect to service")`.
  A successful body is decoded, then checked for being malformed and for an `error`
  entry. It is refused as malformed when it is PHP-empty and neither `[]` nor `{}`. It is raised as `ServiceErrorException` when
  it carries a set `error` entry.
- **`ServiceController`** (`src/Controller/ServiceController.php`) is the inbound gate.
  It picks the token and service header names from two container parameters, falling
  back to `X-Auth-Token` / `X-Service`. It reads both headers and returns the verifier's
  verdict, with a `VerificationException` read as `false`. It also builds the
  `jsonError` / `authFailed` responses.

Files:

- `wrappers.dfy`: module `Wrappers`, with `Option` and `Result`.
- `php.dfy`: module `Php`. It holds PHP values, `empty()`, `isset($a[$k])`, json_decode's
  string argument, and the JSON codec oracle.
- `connection.dfy`: module `Framework`. It holds the token manager and adapter, given as
  oracles with call logs. It also holds the reference state machine `Exec`, its lemmas,
  and the class `Connection`.
- `service_controller.dfy`: module `Controller`. It holds the header-name choice, the
  class `ServiceController` and the JSON error responses.

How the outbound side is modelled:

- The token manager and the adapter are objects whose answer is a fixed function of
  everything they were asked before and of the present question. Each keeps a log of
  its calls.
- `Exec` is the per-call state machine Fetch → Send → Received → {Decode | Fetch with a
  fresh token | failure}. `Connection.Request` is recursive, as the PHP method is. Its
  contract says that it returns what `Exec` returns and leaves the logs that `Exec` leaves.
- The lemmas about `Exec` state the retry bound, when a fresh token is requested, error classification
  and how the retry relates to a nested request.

## Model

| member | source | states |
|---|---|---|
| `Php.NatText` | src/Connection.php:56 | the decimal text of a natural number is a non-empty digit string with no leading zero, and is "0" exactly for 0 |
| `Php.NatTextRoundTrip` | src/Connection.php:56 | reading the decimal text of a natural number back as digits gives the number |
| `Php.IntText` | src/Connection.php:56 | PHP's string form of an integer is an optional minus sign and digits, and is PHP-empty exactly for 0 |
| `Php.IntTextRoundTrip` | src/Connection.php:56 | reading PHP's string form of an integer back gives the integer |
| `Php.StringArgument` | src/Connection.php:56 | the string a non-array value becomes as json_decode's argument: null and false become `""`, true becomes `"1"`, an integer its decimal text (which reads back as the integer), a float its printed text, and a string stays itself |
| `Php.JsonDecode` | src/Connection.php:56 | `json_decode($response, true)` raises a TypeError exactly when handed an array; any other value is decoded from its string form |
| `Php.JsonEncode` | src/Connection.php:32 | `json_encode` gives `false` exactly when the encoder fails, and otherwise the encoder's text |
| `Framework.TokenManager.GetToken` | src/Connection.php:36 | each getToken call is logged with its useCache flag, and the token is the oracle's answer given the history |
| `Framework.Adapter.Request` | src/Connection.php:43 | each adapter call is logged, and its outcome is the oracle's answer given the history |
| `Framework.BuildParams` | src/Connection.php:29-40 | no `body` key exactly when the body is null; a scalar body is passed unchanged, and an array body becomes its JSON text; the header keys are the caller's plus the auth header; the auth header carries the token unless the caller sets the same key, and every caller header keeps its value |
| `Framework.ErrorMessage` | src/Connection.php:48-50 | the message is the decoded error body's `error` entry when set, else "Error while connecting to service"; it is never null |
| `Framework.Classify` | src/Connection.php:42-54 | a retry happens exactly on a 403 with useCache true; a delivered body goes on to be read; every other client error and every other exception ends in ServiceUnavailable, with the upstream message or "Failed to connect to service" |
| `Framework.ReadResponse` | src/Connection.php:56-66 | TypeError exactly for an array response; otherwise, with `d` the decoding of the response's string form: ServiceBadResponse("Malformed service response") exactly when `d` is PHP-empty and the response is neither `[]` nor `{}`; ServiceError carrying the `error` entry when `d` has a set `error` entry; and in every other case the result is `d` itself |
| `Framework.Exec` | src/Connection.php:27-67 | the request state machine only appends to the token and adapter logs, by at most two entries each, and by one each when useCache is false |
| `Framework.FirstAttempt` | src/Connection.php:35-43 | the first attempt asks for one token with the caller's useCache, then makes one adapter call whose auth header carries that token |
| `Framework.SingleAttempt` | src/Connection.php:36-46 | with useCache false there is exactly one token request (`false`) and one adapter call, whatever the adapter answers |
| `Framework.Attempts` | src/Connection.php:36-46 | after a 403 with useCache true (and with the token manager answering, as it always does here), exactly two adapter calls are made, the second repeating the call with the fresh token, and the token requests are `[true, false]`; otherwise one call and one token request with the caller's flag; so getToken(false) is never asked first unless the caller passed false |
| `Framework.FirstAttemptFails` | src/Connection.php:44-54 | a non-client exception raises ServiceUnavailable("Failed to connect to service") and a client error that is not retried raises ServiceUnavailable with the upstream `error` or the default message, after one attempt |
| `Framework.FirstAttemptAnswered` | src/Connection.php:56-66 | a delivered first answer is read once by the response checks and nothing more is called |
| `Framework.RetryIsNestedRequest` | src/Connection.php:44-46 | after a 403 with useCache true, the request is the same request with useCache false, run from the logs the first attempt left; its exceptions propagate unchanged, and its value passes the response checks once more |
| `Framework.ModesAgreeWithoutCache` | src/Connection.php:45 | with useCache false nothing is retried, so the request as written and the corrected request agree |
| `Framework.IntendedAgreesOffRetry` | src/Connection.php:45-46 | the corrected request differs from the code only after a 403 with useCache true |
| `Framework.IntendedRetryReturnsFreshResult` | src/Connection.php:46 | corrected: after a 403 with useCache true, the request returns or raises exactly what the fresh-token request does |
| `Framework.RetriedSuccessIsDecodedTwice` | src/Connection.php:46-56 | as written, a retry that succeeds with a JSON object or list ends in a TypeError, where the corrected request returns the value |
| `Framework.Connection.constructor` | src/Connection.php:14-25 | the token manager and adapter are the given ones, and the auth header name starts as `X-Auth-Token` |
| `Framework.Connection.Request` | src/Connection.php:27-67 | returns exactly what the state machine returns for the same configuration, arguments and logs, and leaves the token and adapter logs it describes |
| `Framework.Connection.Get` | src/Connection.php:69-72 | a GET request with no body and useCache true |
| `Framework.Connection.Post` | src/Connection.php:74-77 | a POST request with the body and useCache true |
| `Framework.Connection.Put` | src/Connection.php:79-82 | a PUT request with the body and useCache true |
| `Framework.Connection.Delete` | src/Connection.php:84-87 | a DELETE request with the body and useCache true |
| `Framework.Connection.SetAuthTokenHeader` | src/Connection.php:92-95 | the auth header name is replaced, and the adapter is left alone |
| `Framework.Connection.SetConnection` | src/Connection.php:100-103 | the adapter is replaced, and the auth header name is left alone |
| `Controller.PickNames` | src/Controller/ServiceController.php:34-50 | without a container both defaults are used; a first lookup raising InvalidArgument leaves both defaults; a second one raising InvalidArgument keeps the first name and defaults the second; PHP-empty names fall back; any other exception of a lookup leaves the gate as that same exception, and nothing else does |
| `Controller.HeaderNames` | src/Controller/ServiceController.php:36-50 | as written: the token header name is the `service_header` parameter, kept even when the `token_header` lookup raises InvalidArgument |
| `Controller.HeaderNamesIntended` | src/Controller/ServiceController.php:38-39 | corrected: the token header name is the `token_header` parameter when it is set and non-empty |
| `Controller.SwappedHeaderParameters` | src/Controller/ServiceController.php:38-39 | with both parameters configured, the code reads the token from the header configured as the service header and the reverse; the corrected choice does not |
| `Controller.JsonError` | src/Controller/ServiceController.php:65-68 | the payload is exactly `{'error': error}`, with the given status (200 by default) and headers |
| `Controller.AuthFailed` | src/Controller/ServiceController.php:70-73 | the payload is exactly `{'error': 'Service authentication failed'}`, with status 403 and no extra headers |
| `Controller.ServiceController.constructor` | src/Controller/ServiceController.php:12-17 | the verifier and the container start unset |
| `Controller.ServiceController.SetVerifier` | src/Controller/ServiceController.php:22-25 | the verifier is replaced, and the container is left alone |
| `Controller.ServiceController.SetContainer` | src/Controller/ServiceController.php:12-14 | the container is replaced, and the verifier is left alone |
| `Controller.ServiceController.CheckAuth` | src/Controller/ServiceController.php:32-63 | `true` only when the verifier said true for the two chosen headers; the verifier's answer is returned as given; a VerificationException becomes `false` and never escapes; container exceptions other than InvalidArgument, and other verifier exceptions, propagate; calling it with no verifier set is an error |

## Findings

| source | as written | input that shows it | evidently intended | confidence | as-written member | corrected member |
|---|---|---|---|---|---|---|
| src/Connection.php:46-56 | the retry stores the recursive call's already decoded result in `$response`, and line 56 runs `json_decode` on it again | `useCache` true; the first answer is a 403; the retry is answered `{"id":1}`. The recursive call returns `['id' => 1]`, and `json_decode(['id' => 1], true)` raises a TypeError in PHP 8 | the retry's result is returned as the recursive call returns it | high (not executed) | `Framework.RetriedSuccessIsDecodedTwice` | `Framework.IntendedRetryReturnsFreshResult` |
| src/Controller/ServiceController.php:38-39 | `$tokenHeader` is read from `symfony.micro_services.service_header` and `$serviceHeader` from `symfony.micro_services.token_header` | `token_header = X-Token` and `service_header = X-Svc`. The gate reads the token from `X-Svc` and the service name from `X-Token` | each header name comes from the parameter of the same name | high (not executed) | `Controller.SwappedHeaderParameters` | `Controller.HeaderNamesIntended` |

`Framework.Connection.Request` and `Controller.ServiceController.CheckAuth` follow the
code as written. The corrected definitions are `Framework.RunIntended` (the state
machine in `Intended` mode) and `Controller.HeaderNamesIntended`.

`jsonError` defaults to status 200, although it builds an error payload. `authFailed`
passes 403 explicitly. The model keeps 200 as the default. The intent is unclear, so
this is not listed as a finding.

## Left out

- The Guzzle adapter and the reading of a client error's response stream are network I/O. The adapter is an oracle that answers each call with a body, a client error (status and body) or another exception.
- The token manager's minting and caching are not modelled. It is an oracle `mint(history, useCache)`. The model does not promise that `getToken(false)` returns a new token; it only shows when `false` is asked for.
- The verifier's JWT checking is not modelled. It is an oracle from the two header values to a verdict or an exception.
- `json_encode` / `json_decode` internals are library code. They are an oracle `Codec`. The model adds only the argument handling of PHP 8 `json_decode`: an array raises TypeError, and other scalars are turned into strings.
- Framework glue is not modelled: the Symfony container (beyond `getParameter`), `JsonResponse` construction and the request header bag (beyond lookup by exact name). Header names in the bag are case-insensitive in Symfony. Here they are matched exactly.
- `json()` in ServiceController is a one-line constructor wrapper. `JsonResponse` values stand for it.
- PHP arrays are unordered maps from key text. Key order and integer-key renumbering by `array_merge` are not captured. Header values and container parameters are strings only, and array-valued headers or non-string parameters are not modelled.
- PHP objects as request bodies are not modelled. Array bodies stand for every non-scalar body.
- Exception messages are PHP values. The model does not cover a non-string `error` entry being turned into the exception's string message, or the error that raises for an array.
- `Php.JsonDecode`: PHP 7 behaviour is not modelled. There, `json_decode` of an array returns null with a warning, so the retry path raises ServiceBadResponse instead of a TypeError.
- The collaborators are deterministic functions of their own call history. Answers that depend on anything else, such as wall-clock token expiry, are covered only as far as that history determines them.
- `TokenManager.GetToken` never fails in the model. In PHP an exception from `getToken`, on the first attempt (outside the `try`) or on the retry (inside the `catch`), leaves `request` unwrapped. `Attempts`' two-call count after a 403 assumes the fresh token is obtained.
- `Outcome.TransportFailed` stands only for an `\Exception` from the adapter. A PHP `\Error` thrown there is not caught by `request` and is not modelled.

=== FILE: connection.dfy ===
/**
 * The outbound connection (src/Connection.php): every call fetches a token,
 * puts it under the auth header, hands the call to the adapter, and reads the
 * answer. A 403 while cached tokens were allowed is retried once with a
 * fresh token.
 *
 * The token manager and the adapter are black boxes. Each is an object whose
 * answer is a fixed function of everything it was asked before and of the
 * present question, and each keeps the log of what it was asked, so that the
 * contracts below can say which calls a request makes and in which order.
 *
 * `Exec` is the reference: the per-call state machine
 * Fetch -> Send -> Received -> {Decode | Fetch (fresh) | failure}.
 * `Connection.Request` follows the PHP code, recursion included, and is
 * proved to end exactly where `Exec` does.
 */
module Framework {
  import opened Wrappers
  import opened Php

  const DEFAULT_AUTH_TOKEN_HEADER := "X-Auth-Token"
  const FORBIDDEN := 403
  const CONNECT_ERROR := "Error while connecting to service"
  const CONNECT_FAILED := "Failed to connect to service"
  const MALFORMED := "Malformed service response"

  /** The options handed to the adapter: the optional body and the headers. */
  datatype Params = Params(body: Option<Value>, headers: map<string, string>)

  /** One call to the adapter. */
  datatype Call = Call(verb: string, endpoint: string, params: Params)

  /**
   * How one call to the adapter ends: an answer body, a client error (4xx)
   * with its status code and body, or any other `\Exception`. A PHP `\Error`
   * is not caught by the code and is not an outcome here.
   */
  datatype Outcome = Delivered(body: string) | Rejected(code: int, body: string) | TransportFailed

  /** The exceptions a request can end with. */
  datatype Failure =
    | ServiceUnavailable(message: Value)
    | ServiceBadResponse(reason: string)
    | ServiceError(message: Value)
    | DecodeTypeError  // json_decode was handed an array

  /** The token manager: `mint(history, useCache)` is its answer to getToken(useCache). */
  class TokenManager {
    const mint: (seq<bool>, bool) -> string
    var requests: seq<bool>

    constructor (mint: (seq<bool>, bool) -> string)
      ensures this.mint == mint && requests == []
    {
      this.mint := mint;
      requests := [];
    }

    method GetToken(useCache: bool) returns (token: string)
      modifies this
      ensures requests == old(requests) + [useCache]
      ensures token == mint(old(requests), useCache)
    {
      token := mint(requests, useCache);
      requests := requests + [useCache];
    }
  }

  /** The connection adapter: `answer(history, call)` is how the call ends. */
  class Adapter {
    const answer: (seq<Call>, Call) -> Outcome
    var calls: seq<Call>

    constructor (answer: (seq<Call>, Call) -> Outcome)
      ensures this.answer == answer && calls == []
    {
      this.answer := answer;
      calls := [];
    }

    method Request(verb: string, endpoint: string, params: Params) returns (outcome: Outcome)
      modifies this
      ensures calls == old(calls) + [Call(verb, endpoint, params)]
      ensures outcome == answer(old(calls), Call(verb, endpoint, params))
    {
      outcome := answer(calls, Call(verb, endpoint, params));
      calls := calls + [Call(verb, endpoint, params)];
    }
  }

  /** The adapter options for one attempt. */
  function BuildParams(codec: Codec, authHeader: string, token: string, body: Value,
                       headers: map<string, string>): (p: Params)
    ensures p.body.None? <==> body == Null
    ensures IsScalar(body) ==> p.body == Some(body)
    ensures body.Arr? ==> p.body == Some(JsonEncode(codec, body))
    ensures p.headers.Keys == headers.Keys + {authHeader}
    ensures authHeader !in headers ==> p.headers[authHeader] == token
    ensures forall k :: k in headers ==> p.headers[k] == headers[k]
  {
    var payload := if body == Null then None
                   else Some(if IsScalar(body) then body else JsonEncode(codec, body));
    var auth := map[authHeader := token];
    Params(payload, if |headers| == 0 then auth else auth + headers)
  }

  /** `$error['error'] ?? 'Error while connecting to service'`. */
  function ErrorMessage(error: Value): (message: Value)
    ensures message != Null
    ensures IsSet(error, "error") ==> message == error.entries["error"]
    ensures !IsSet(error, "error") ==> message == Str(CONNECT_ERROR)
  {
    if IsSet(error, "error") then error.entries["error"] else Str(CONNECT_ERROR)
  }

  /** What an attempt leads to once the adapter has answered. */
  datatype Step = Reply(body: string) | RetryFresh | Abort(failure: Failure)

  /** The try/catch around the adapter call. */
  function Classify(codec: Codec, outcome: Outcome, useCache: bool): (step: Step)
    ensures step.RetryFresh? <==> useCache && outcome.Rejected? && outcome.code == FORBIDDEN
    ensures step.Reply? <==> outcome.Delivered?
    ensures step.Reply? ==> step.body == outcome.body
    ensures step.Abort? ==> step.failure.ServiceUnavailable? && step.failure.message != Null
    ensures outcome.TransportFailed? ==> step == Abort(ServiceUnavailable(Str(CONNECT_FAILED)))
    ensures outcome.Rejected? && !step.RetryFresh? ==>
              step == Abort(ServiceUnavailable(ErrorMessage(codec.decode(outcome.body))))
  {
    match outcome
    case Delivered(body) => Reply(body)
    case Rejected(code, body) =>
      if useCache && code == FORBIDDEN then RetryFresh
      else Abort(ServiceUnavailable(ErrorMessage(codec.decode(body))))
    case TransportFailed => Abort(ServiceUnavailable(Str(CONNECT_FAILED)))
  }

  /** Reading a response: decode it, refuse a malformed one, raise an `error` entry. */
  function ReadResponse(codec: Codec, response: Value): (r: Result<Value, Failure>)
    ensures response.Arr? <==> r == Err(DecodeTypeError)
    ensures r.Err? && r.error.ServiceBadResponse? <==>
              !response.Arr? && Empty(codec.decode(StringArgument(response)))
              && response != Str("[]") && response != Str("{}")
    ensures r.Err? && r.error.ServiceBadResponse? ==> r.error.reason == MALFORMED
    ensures !response.Arr? && IsSet(codec.decode(StringArgument(response)), "error") ==>
              r == Err(ServiceError(codec.decode(StringArgument(response)).entries["error"]))
    ensures !response.Arr? && r.Ok? ==> r.value == codec.decode(StringArgument(response))
    ensures (!response.Arr? && !IsSet(codec.decode(StringArgument(response)), "error")
             && !(Empty(codec.decode(StringArgument(response))) && response != Str("[]") && response != Str("{}")))
            ==> r == Ok(codec.decode(StringArgument(response)))
  {
    match JsonDecode(codec, response)
    case None => Err(DecodeTypeError)
    case Some(result) =>
      if Empty(result) && response != Str("[]") && response != Str("{}") then Err(ServiceBadResponse(MALFORMED))
      else if IsSet(result, "error") then Err(ServiceError(result.entries["error"]))
      else Ok(result)
  }

  /** The collaborators and configuration a request runs against. */
  datatype Env = Env(authHeader: string, mint: (seq<bool>, bool) -> string,
                     answer: (seq<Call>, Call) -> Outcome, codec: Codec)

  /** The caller's arguments, apart from useCache. */
  datatype Req = Req(verb: string, endpoint: string, body: Value, headers: map<string, string>)

  /** What the token manager and the adapter have been asked so far. */
  datatype Log = Log(tokens: seq<bool>, calls: seq<Call>)

  /** How a request ends, and the logs afterwards. */
  datatype Trace = Trace(result: Result<Value, Failure>, log: Log)

  /**
   * `AsWritten` follows the code: the retry's decoded result is read once
   * more by the outer call. `Intended` hands the retry's result back as it is.
   */
  datatype Mode = AsWritten | Intended

  /**
   * The states of one request. `redecode` marks the attempt made by the
   * retry, whose result the outer call still reads once more (as written).
   */
  datatype Phase =
    | Fetch(useCache: bool, redecode: bool)
    | Send(useCache: bool, redecode: bool, token: string)
    | Received(useCache: bool, redecode: bool, outcome: Outcome)
    | Decode(response: Value, redecode: bool)

  function Rank(ph: Phase): nat {
    match ph
    case Fetch(u, _) => if u then 8 else 5
    case Send(u, _, _) => if u then 7 else 4
    case Received(u, _, _) => if u then 6 else 3
    case Decode(_, rd) => if rd then 2 else 1
  }

  /** How many more adapter calls a phase may still make. */
  function CallBudget(ph: Phase): nat {
    match ph
    case Fetch(u, _) => if u then 2 else 1
    case Send(u, _, _) => if u then 2 else 1
    case Received(u, _, _) => if u then 1 else 0
    case Decode(_, _) => 0
  }

  /** How many more tokens a phase may still ask for. */
  function TokenBudget(ph: Phase): nat {
    match ph
    case Fetch(u, _) => if u then 2 else 1
    case Send(u, _, _) => if u then 1 else 0
    case Received(u, _, _) => if u then 1 else 0
    case Decode(_, _) => 0
  }

  /**
   * The request state machine. Its contract: the logs only grow, by at
   * most two adapter calls and two token requests from the start, and by one
   * of each when cached tokens are not allowed.
   */
  function Exec(mode: Mode, env: Env, req: Req, ph: Phase, log: Log): (t: Trace)
    ensures log.tokens <= t.log.tokens && log.calls <= t.log.calls
    ensures |t.log.calls| <= |log.calls| + CallBudget(ph)
    ensures |t.log.tokens| <= |log.tokens| + TokenBudget(ph)
    decreases Rank(ph)
  {
    match ph
    case Fetch(u, rd) =>
      var token := env.mint(log.tokens, u);
      Exec(mode, env, req, Send(u, rd, token), log.(tokens := log.tokens + [u]))
    case Send(u, rd, token) =>
      var call := Call(req.verb, req.endpoint,
                       BuildParams(env.codec, env.authHeader, token, req.body, req.headers));
      Exec(mode, env, req, Received(u, rd, env.answer(log.calls, call)), log.(calls := log.calls + [call]))
    case Received(u, rd, outcome) =>
      (match Classify(env.codec, outcome, u)
       case Reply(body) => Exec(mode, env, req, Decode(Str(body), rd), log)
       case RetryFresh => Exec(mode, env, req, Fetch(false, mode == AsWritten), log)
       case Abort(failure) => Trace(Err(failure), log))
    case Decode(response, rd) =>
      var r := ReadResponse(env.codec, response);
      if rd && r.Ok? then Exec(mode, env, req, Decode(r.value, false), log) else Trace(r, log)
  }

  /** `request(...)` as the code has it. */
  function Run(env: Env, req: Req, log: Log, useCache: bool): Trace {
    Exec(AsWritten, env, req, Fetch(useCache, false), log)
  }

  /** `request(...)` with the retry's result returned unchanged. */
  function RunIntended(env: Env, req: Req, log: Log, useCache: bool): Trace {
    Exec(Intended, env, req, Fetch(useCache, false), log)
  }

  /** The adapter call of the first attempt. */
  function FirstCall(env: Env, req: Req, log: Log, useCache: bool): Call {
    Call(req.verb, req.endpoint,
         BuildParams(env.codec, env.authHeader, env.mint(log.tokens, useCache), req.body, req.headers))
  }

  /** The adapter's answer to the first attempt. */
  function FirstAnswer(env: Env, req: Req, log: Log, useCache: bool): Outcome {
    env.answer(log.calls, FirstCall(env, req, log, useCache))
  }

  /** The first attempt is answered with a 403 while cached tokens were allowed. */
  predicate RetriesFirst(env: Env, req: Req, log: Log, useCache: bool) {
    var outcome := FirstAnswer(env, req, log, useCache);
    useCache && outcome.Rejected? && outcome.code == FORBIDDEN
  }

  /** The logs after the first attempt. */
  function AfterFirst(env: Env, req: Req, log: Log, useCache: bool): Log {
    Log(log.tokens + [useCache], log.calls + [FirstCall(env, req, log, useCache)])
  }

  /** The first attempt asks for one token, then makes one adapter call carrying it. */
  lemma FirstAttempt(mode: Mode, env: Env, req: Req, log: Log, useCache: bool, rd: bool)
    ensures Exec(mode, env, req, Fetch(useCache, rd), log)
         == Exec(mode, env, req, Received(useCache, rd, FirstAnswer(env, req, log, useCache)),
                 AfterFirst(env, req, log, useCache))
  {
  }

  /**
   * Without cached tokens there is exactly one attempt, whatever the mode:
   * one token request with useCache=false and one adapter call.
   */
  lemma SingleAttempt(mode: Mode, env: Env, req: Req, log: Log, rd: bool)
    ensures Exec(mode, env, req, Fetch(false, rd), log).log == AfterFirst(env, req, log, false)
  {
  }

  /**
   * The attempts of a request. A first answer of 403 while cached tokens
   * were allowed leads to exactly one more attempt, asking for a fresh token
   * and repeating the same call with it; anything else ends after the first
   * attempt. So there are at most two adapter calls, and getToken(false) is
   * asked for only when the caller passed useCache=false or after a 403.
   */
  lemma {:induction false} Attempts(mode: Mode, env: Env, req: Req, log: Log, useCache: bool)
    ensures var t := Exec(mode, env, req, Fetch(useCache, false), log);
            var l1 := AfterFirst(env, req, log, useCache);
            if RetriesFirst(env, req, log, useCache)
            then t.log.tokens == log.tokens + [true, false]
                 && t.log.calls == log.calls + [FirstCall(env, req, log, true), FirstCall(env, req, l1, false)]
            else t.log == l1
  {
    FirstAttempt(mode, env, req, log, useCache, false);
    var l1 := AfterFirst(env, req, log, useCache);
    var outcome := FirstAnswer(env, req, log, useCache);
    if Classify(env.codec, outcome, useCache).RetryFresh? {
      SingleAttempt(mode, env, req, l1, mode == AsWritten);
    }
  }

  /** Transport failures that are not a 403 with cached tokens end the request at once. */
  lemma {:induction false} FirstAttemptFails(env: Env, req: Req, log: Log, useCache: bool)
    requires FirstAnswer(env, req, log, useCache).TransportFailed?
          || (FirstAnswer(env, req, log, useCache).Rejected?
              && !(useCache && FirstAnswer(env, req, log, useCache).code == FORBIDDEN))
    ensures var outcome := FirstAnswer(env, req, log, useCache);
            var t := Run(env, req, log, useCache);
            t.log == AfterFirst(env, req, log, useCache)
            && (outcome.TransportFailed? ==> t.result == Err(ServiceUnavailable(Str(CONNECT_FAILED))))
            && (outcome.Rejected? ==>
                  t.result == Err(ServiceUnavailable(ErrorMessage(env.codec.decode(outcome.body)))))
  {
    FirstAttempt(AsWritten, env, req, log, useCache, false);
  }

  /** An answered first attempt is read once: decoded, checked, returned. */
  lemma {:induction false} FirstAttemptAnswered(env: Env, req: Req, log: Log, useCache: bool)
    requires FirstAnswer(env, req, log, useCache).Delivered?
    ensures Run(env, req, log, useCache)
         == Trace(ReadResponse(env.codec, Str(FirstAnswer(env, req, log, useCache).body)),
                  AfterFirst(env, req, log, useCache))
  {
    FirstAttempt(AsWritten, env, req, log, useCache, false);
  }

  /** The outer call reading the retry's result: `json_decode($response, true)` and its checks, once more. */
  function Reread(codec: Codec, t: Trace): Trace {
    if t.result.Ok? then Trace(ReadResponse(codec, t.result.value), t.log) else t
  }

  /**
   * The retry is the same request with useCache=false, made from the logs
   * the first attempt left; its failure propagates unchanged, and its value
   * goes through the response checks of the outer call once more.
   */
  lemma {:induction false} RetryIsNestedRequest(env: Env, req: Req, log: Log)
    requires FirstAnswer(env, req, log, true).Rejected?
    requires FirstAnswer(env, req, log, true).code == FORBIDDEN
    ensures var inner := Run(env, req, AfterFirst(env, req, log, true), false);
            Run(env, req, log, true) == Reread(env.codec, inner)
            && (inner.result.Err? ==> Run(env, req, log, true) == inner)
  {
    var l1 := AfterFirst(env, req, log, true);
    var l2 := AfterFirst(env, req, l1, false);
    var outcome := FirstAnswer(env, req, l1, false);
    FirstAttempt(AsWritten, env, req, log, true, false);
    FirstAttempt(AsWritten, env, req, l1, false, true);
    FirstAttempt(AsWritten, env, req, l1, false, false);
    assert Run(env, req, log, true) == Exec(AsWritten, env, req, Received(false, true, outcome), l2);
    assert Run(env, req, l1, false) == Exec(AsWritten, env, req, Received(false, false, outcome), l2);
    match Classify(env.codec, outcome, false)
    case Reply(body) =>
      assert Run(env, req, log, true) == Exec(AsWritten, env, req, Decode(Str(body), true), l2);
      assert Run(env, req, l1, false) == Exec(AsWritten, env, req, Decode(Str(body), false), l2);
      var first := ReadResponse(env.codec, Str(body));
      if first.Ok? {
        assert Run(env, req, log, true) == Exec(AsWritten, env, req, Decode(first.value, false), l2);
      }
    case Abort(_) =>
  }

  /** Without cached tokens nothing is retried, so the two modes agree. */
  lemma {:induction false} ModesAgreeWithoutCache(env: Env, req: Req, log: Log)
    ensures RunIntended(env, req, log, false) == Run(env, req, log, false)
  {
    FirstAttempt(AsWritten, env, req, log, false, false);
    FirstAttempt(Intended, env, req, log, false, false);
  }

  /** The two modes differ only after a 403 while cached tokens were allowed. */
  lemma {:induction false} IntendedAgreesOffRetry(env: Env, req: Req, log: Log, useCache: bool)
    requires !RetriesFirst(env, req, log, useCache)
    ensures RunIntended(env, req, log, useCache) == Run(env, req, log, useCache)
  {
    FirstAttempt(AsWritten, env, req, log, useCache, false);
    FirstAttempt(Intended, env, req, log, useCache, false);
  }

  /**
   * Corrected retry: after a 403 with cached tokens allowed, the request
   * returns (or raises) exactly what the same request with useCache=false
   * returns from the logs the first attempt left.
   */
  lemma {:induction false} IntendedRetryReturnsFreshResult(env: Env, req: Req, log: Log)
    requires RetriesFirst(env, req, log, true)
    ensures RunIntended(env, req, log, true) == Run(env, req, AfterFirst(env, req, log, true), false)
  {
    var l1 := AfterFirst(env, req, log, true);
    FirstAttempt(Intended, env, req, log, true, false);
    ModesAgreeWithoutCache(env, req, l1);
  }

  /**
   * As written, a retry that succeeds with a JSON object or list does not
   * return it: the outer call hands the decoded array to json_decode, which
   * raises a TypeError. The corrected request returns the value.
   */
  lemma {:induction false} RetriedSuccessIsDecodedTwice(env: Env, req: Req, log: Log)
    requires RetriesFirst(env, req, log, true)
    requires FirstAnswer(env, req, AfterFirst(env, req, log, true), false).Delivered?
    requires ReadResponse(env.codec, Str(FirstAnswer(env, req, AfterFirst(env, req, log, true), false).body)).Ok?
    requires ReadResponse(env.codec, Str(FirstAnswer(env, req, AfterFirst(env, req, log, true), false).body)).value.Arr?
    ensures Run(env, req, log, true).result == Err(DecodeTypeError)
    ensures RunIntended(env, req, log, true).result
         == ReadResponse(env.codec, Str(FirstAnswer(env, req, AfterFirst(env, req, log, true), false).body))
  {
    var l1 := AfterFirst(env, req, log, true);
    RetryIsNestedRequest(env, req, log);
    FirstAttemptAnswered(env, req, l1, false);
    IntendedRetryReturnsFreshResult(env, req, log);
  }

  /** The connection: the adapter, the token manager and the auth header name. */
  class Connection {
    var connection: Adapter
    const tokenManager: TokenManager
    var authTokenHeader: string

    constructor (tokenManager: TokenManager, connection: Adapter)
      ensures this.tokenManager == tokenManager && this.connection == connection
      ensures authTokenHeader == DEFAULT_AUTH_TOKEN_HEADER
    {
      this.tokenManager := tokenManager;
      this.connection := connection;
      authTokenHeader := DEFAULT_AUTH_TOKEN_HEADER;
    }

    /** The configuration and collaborators a request of this connection runs against. */
    function Environment(codec: Codec): Env
      reads this
    {
      Env(authTokenHeader, tokenManager.mint, connection.answer, codec)
    }

    /** What the token manager and the adapter have been asked so far. */
    ghost function Logs(): Log
      reads this, tokenManager, connection
    {
      Log(tokenManager.requests, connection.calls)
    }

    method Request(verb: string, endpoint: string, body: Value, headers: map<string, string>,
                   useCache: bool, codec: Codec) returns (r: Result<Value, Failure>)
      modifies tokenManager, connection
      ensures var t := Run(Environment(codec), Req(verb, endpoint, body, headers), old(Logs()), useCache);
              r == t.result && Logs() == t.log
      decreases if useCache then 1 else 0
    {
      ghost var env := Environment(codec);
      ghost var req := Req(verb, endpoint, body, headers);
      ghost var log := Logs();

      var payload: Option<Value> := None;
      if body != Null {
        payload := Some(if IsScalar(body) then body else JsonEncode(codec, body));
      }
      var token := tokenManager.GetToken(useCache);
      var sent := map[authTokenHeader := token];
      if |headers| != 0 {
        sent := sent + headers;
      }
      var outcome := connection.Request(verb, endpoint, Params(payload, sent));
      assert Params(payload, sent) == FirstCall(env, req, log, useCache).params;
      assert outcome == FirstAnswer(env, req, log, useCache);
      assert Logs() == AfterFirst(env, req, log, useCache);

      // the trace the response checks below must complete
      ghost var pending: Trace;
      var response: Value;
      match outcome {
        case Delivered(data) =>
          FirstAttemptAnswered(env, req, log, useCache);
          pending := Trace(Ok(Str(data)), Logs());
          response := Str(data);
        case Rejected(code, data) =>
          if useCache && code == FORBIDDEN {
            RetryIsNestedRequest(env, req, log);
            var retried := Request(verb, endpoint, body, headers, false, codec);
            if retried.Err? {
              return retried;
            }
            pending := Trace(retried, Logs());
            response := retried.value;
          } else {
            FirstAttemptFails(env, req, log, useCache);
            var error := codec.decode(data);
            return Err(ServiceUnavailable(ErrorMessage(error)));
          }
        case TransportFailed =>
          FirstAttemptFails(env, req, log, useCache);
          return Err(ServiceUnavailable(Str(CONNECT_FAILED)));
      }
      assert Run(env, req, log, useCache) == Reread(codec, pending);

      var result := JsonDecode(codec, response);
      if result.None? {
        return Err(DecodeTypeError);
      }
      if Empty(result.value) && response != Str("[]") && response != Str("{}") {
        return Err(ServiceBadResponse(MALFORMED));
      }
      if IsSet(result.value, "error") {
        return Err(ServiceError(result.value.entries["error"]));
      }
      return Ok(result.value);
    }

    method Get(endpoint: string, headers: map<string, string>, codec: Codec) returns (r: Result<Value, Failure>)
      modifies tokenManager, connection
      ensures var t := Run(Environment(codec), Req("GET", endpoint, Null, headers), old(Logs()), true);
              r == t.result && Logs() == t.log
    {
      r := Request("GET", endpoint, Null, headers, true, codec);
    }

    method Post(endpoint: string, body: Value, headers: map<string, string>, codec: Codec)
      returns (r: Result<Value, Failure>)
      modifies tokenManager, connection
      ensures var t := Run(Environment(codec), Req("POST", endpoint, body, headers), old(Logs()), true);
              r == t.result && Logs() == t.log
    {
      r := Request("POST", endpoint, body, headers, true, codec);
    }

    method Put(endpoint: string, body: Value, headers: map<string, string>, codec: Codec)
      returns (r: Result<Value, Failure>)
      modifies tokenManager, connection
      ensures var t := Run(Environment(codec), Req("PUT", endpoint, body, headers), old(Logs()), true);
              r == t.result && Logs() == t.log
    {
      r := Request("PUT", endpoint, body, headers, true, codec);
    }

    method Delete(endpoint: string, body: Value, headers: map<string, string>, codec: Codec)
      returns (r: Result<Value, Failure>)
      modifies tokenManager, connection
      ensures var t := Run(Environment(codec), Req("DELETE", endpoint, body, headers), old(Logs()), true);
              r == t.result && Logs() == t.log
    {
      r := Request("DELETE", endpoint, body, headers, true, codec);
    }

    method SetAuthTokenHeader(authTokenHeader: string)
      modifies this`authTokenHeader
      ensures this.authTokenHeader == authTokenHeader
    {
      this.authTokenHeader := authTokenHeader;
    }

    method SetConnection(connection: Adapter)
      modifies this`connection
      ensures this.connection == connection
    {
      this.connection := connection;
    }
  }
}

=== FILE: php.dfy ===
/**
 * The few PHP semantics the connection and the controller rely on: PHP values
 * as json_decode(..., true) produces them, `empty()`, `isset($a[$k])`, the
 * coercion of a scalar to the string argument of json_decode, and the JSON
 * codec itself, which is library code and is therefore an oracle here.
 */
module Php {
  import opened Wrappers

  /**
   * A PHP value. Arrays are keyed by their key text; a float carries the
   * string PHP prints for it (so 0.0 is "0" and -0.0 is "-0").
   */
  datatype Value =
    | Null
    | Bool(b: bool)
    | Int(i: int)
    | Float(text: string)
    | Str(s: string)
    | Arr(entries: map<string, Value>)

  /** `is_scalar`: booleans, integers, floats and strings. */
  predicate IsScalar(v: Value) {
    v.Bool? || v.Int? || v.Float? || v.Str?
  }

  /** `empty()`: null, false, 0, 0.0, "", "0" and the empty array. */
  predicate Empty(v: Value) {
    match v
    case Null => true
    case Bool(b) => !b
    case Int(i) => i == 0
    case Float(t) => t == "0" || t == "-0"
    case Str(s) => s == "" || s == "0"
    case Arr(m) => |m| == 0
  }

  /** `isset($v[$key])`: $v is an array holding a non-null value under $key. */
  predicate IsSet(v: Value, key: string) {
    v.Arr? && key in v.entries && v.entries[key] != Null
  }

  /** json_encode and json_decode($s, true); encode answers None where PHP answers false. */
  datatype Codec = Codec(encode: Value -> Option<string>, decode: string -> Value)

  /** A string made only of the digits 0-9. */
  predicate AllDigits(s: string) {
    forall i :: 0 <= i < |s| ==> '0' <= s[i] <= '9'
  }

  /** The number a string of decimal digits denotes, read most significant digit first. */
  function ParseNat(s: string): nat
    requires AllDigits(s)
  {
    if |s| == 0 then 0 else ParseNat(s[..|s| - 1]) * 10 + (s[|s| - 1] as int - '0' as int)
  }

  /** Integer text: an optional minus sign followed by decimal digits. */
  predicate IntShaped(s: string) {
    AllDigits(s) || (|s| > 0 && s[0] == '-' && AllDigits(s[1..]))
  }

  /** The integer an integer text denotes. */
  function ParseInt(s: string): int
    requires IntShaped(s)
  {
    if |s| > 0 && s[0] == '-' then -(ParseNat(s[1..]) as int) else ParseNat(s)
  }

  /** Decimal text of a natural number, without leading zeros. */
  function NatText(n: nat): (t: string)
    ensures |t| > 0 && AllDigits(t)
    ensures t == "0" <==> n == 0
    ensures t[0] == '0' ==> t == "0"
  {
    var digit := "0123456789"[n % 10];
    if n < 10 then [digit] else NatText(n / 10) + [digit]
  }

  /** Reading back the decimal text of a natural number gives the number. */
  lemma {:induction false} NatTextRoundTrip(n: nat)
    ensures ParseNat(NatText(n)) == n
  {
    var t := NatText(n);
    var digit := "0123456789"[n % 10];
    assert digit as int - '0' as int == n % 10;
    if n >= 10 {
      NatTextRoundTrip(n / 10);
      assert t[..|t| - 1] == NatText(n / 10);
    }
  }

  /** PHP's string form of an integer. */
  function IntText(i: int): (t: string)
    ensures IntShaped(t)
    ensures Empty(Str(t)) <==> i == 0
  {
    if i < 0 then "-" + NatText(-i) else NatText(i)
  }

  /** Reading back PHP's string form of an integer gives the integer. */
  lemma IntTextRoundTrip(i: int)
    ensures ParseInt(IntText(i)) == i
  {
    if i < 0 {
      NatTextRoundTrip(-i);
      assert IntText(i)[1..] == NatText(-i);
    } else {
      NatTextRoundTrip(i);
    }
  }

  /**
   * The string a non-array value becomes when passed where PHP expects a
   * string (json_decode's first parameter, without strict types): null and
   * false become "", true becomes "1", an integer its decimal text, a float
   * its printed text, and a string stays itself.
   */
  function StringArgument(v: Value): (t: string)
    requires !v.Arr?
    ensures v.Str? ==> t == v.s
    ensures v == Null || v == Bool(false) ==> t == ""
    ensures v == Bool(true) ==> t == "1"
    ensures v.Int? ==> t == IntText(v.i) && ParseInt(t) == v.i
    ensures v.Float? ==> t == v.text
  {
    match v
    case Null => ""
    case Bool(b) => if b then "1" else ""
    case Int(i) => IntTextRoundTrip(i); IntText(i)
    case Float(t) => t
    case Str(s) => s
  }

  /**
   * json_decode($v, true) under PHP 8: a string is decoded, any other scalar
   * or null is first turned into its string form, and an array raises a
   * TypeError (None).
   */
  function JsonDecode(codec: Codec, v: Value): (r: Option<Value>)
    ensures r.None? <==> v.Arr?
    ensures !v.Arr? ==> r == Some(codec.decode(StringArgument(v)))
  {
    if v.Arr? then None else Some(codec.decode(StringArgument(v)))
  }

  /** json_encode($v): its text, or false when encoding fails. */
  function JsonEncode(codec: Codec, v: Value): (r: Value)
    ensures r.Str? || r == Bool(false)
    ensures r.Str? <==> codec.encode(v).Some?
    ensures codec.encode(v).Some? ==> r == Str(codec.encode(v).value)
  {
    match codec.encode(v)
    case Some(text) => Str(text)
    case None => Bool(false)
  }
}

=== FILE: service_controller.dfy ===
/**
 * The inbound auth gate (src/Controller/ServiceController.php): read a token
 * and a service name from two request headers and let the verifier decide.
 * The header names come from two container parameters, each falling back to
 * a default when it is missing or PHP-empty.
 *
 * The container and the verifier are black boxes: a parameter lookup and a
 * verification are functions whose exceptions are `Err` values.
 */
module Controller {
  import opened Wrappers
  import opened Php

  const DEFAULT_TOKEN_HEADER := "X-Auth-Token"
  const DEFAULT_SERVICE_HEADER := "X-Service"
  const TOKEN_HEADER_PARAMETER := "symfony.micro_services.token_header"
  const SERVICE_HEADER_PARAMETER := "symfony.micro_services.service_header"
  const AUTH_FAILED := "Service authentication failed"
  const FORBIDDEN_STATUS := 403

  /** The exceptions the gate can meet. */
  datatype Thrown =
    | InvalidArgument           // \InvalidArgumentException, e.g. a parameter that is not defined
    | VerificationFailed        // the verifier's VerificationException
    | NullVerifier              // verify() called while no verifier was set
    | Unexpected(name: string)  // any other exception

  /** The dependency-injection container, as far as getParameter goes. */
  datatype Container = Container(getParameter: string -> Result<string, Thrown>)

  /** The verifier: its verdict on a (token, service) pair; a missing header is None. */
  datatype Verifier = Verifier(verify: (Option<string>, Option<string>) -> Result<bool, Thrown>)

  /** A JSON response: payload, status code, headers. */
  datatype JsonResponse = JsonResponse(content: Value, status: int, headers: map<string, string>)

  /** A header name that may be unset, with its default when it is unset or PHP-empty. */
  function OrDefault(name: Option<string>, default: string): string {
    if name.None? || Empty(Str(name.value)) then default else name.value
  }

  /** `$request->headers->get($name)`: the value, or null when absent. */
  function Header(headers: map<string, string>, name: string): Option<string> {
    if name in headers then Some(headers[name]) else None
  }

  /**
   * The header-name choice at the top of `checkAuth`, with the two parameter
   * names as arguments: the token header name is looked up first, then the service header name. A lookup that
   * raises InvalidArgument leaves that name and the ones after it unset; any
   * other exception leaves the gate. An unset or PHP-empty name falls back
   * to its default.
   */
  function PickNames(container: Option<Container>, tokenParameter: string, serviceParameter: string)
    : (r: Result<(string, string), Thrown>)
    ensures container.None? ==> r == Ok((DEFAULT_TOKEN_HEADER, DEFAULT_SERVICE_HEADER))
    ensures r.Ok? ==> !Empty(Str(r.value.0)) && !Empty(Str(r.value.1))
    ensures r.Err? ==> r.error != InvalidArgument
    ensures container.Some? && container.value.getParameter(tokenParameter) == Err(InvalidArgument)
            ==> r == Ok((DEFAULT_TOKEN_HEADER, DEFAULT_SERVICE_HEADER))
    ensures container.Some? && container.value.getParameter(tokenParameter).Ok?
            && container.value.getParameter(serviceParameter) == Err(InvalidArgument)
            ==> r == Ok((OrDefault(Some(container.value.getParameter(tokenParameter).value), DEFAULT_TOKEN_HEADER),
                         DEFAULT_SERVICE_HEADER))
    ensures container.Some? && container.value.getParameter(tokenParameter).Ok?
            && container.value.getParameter(serviceParameter).Ok?
            ==> r == Ok((OrDefault(Some(container.value.getParameter(tokenParameter).value), DEFAULT_TOKEN_HEADER),
                         OrDefault(Some(container.value.getParameter(serviceParameter).value), DEFAULT_SERVICE_HEADER)))
    ensures r.Err? <==> (container.Some? &&
              var first := container.value.getParameter(tokenParameter);
              var second := container.value.getParameter(serviceParameter);
              (first.Err? && first.error != InvalidArgument)
              || (first.Ok? && second.Err? && second.error != InvalidArgument))
    ensures r.Err? ==> (container.Some? &&
              var first := container.value.getParameter(tokenParameter);
              r.error == (if first.Err? then first.error
                          else container.value.getParameter(serviceParameter).error))
  {
    var looked: Result<(Option<string>, Option<string>), Thrown> :=
      match container
      case None => Ok((None, None))
      case Some(c) =>
        match c.getParameter(tokenParameter)
        case Err(e) => if e == InvalidArgument then Ok((None, None)) else Err(e)
        case Ok(tokenHeader) =>
          match c.getParameter(serviceParameter)
          case Err(e) => if e == InvalidArgument then Ok((Some(tokenHeader), None)) else Err(e)
          case Ok(serviceHeader) => Ok((Some(tokenHeader), Some(serviceHeader)));
    match looked
    case Err(e) => Err(e)
    case Ok((tokenHeader, serviceHeader)) =>
      Ok((OrDefault(tokenHeader, DEFAULT_TOKEN_HEADER), OrDefault(serviceHeader, DEFAULT_SERVICE_HEADER)))
  }

  /**
   * The header names as the code chooses them: the token header name comes
   * from the `service_header` parameter and the service header name from the
   * `token_header` parameter.
   */
  function HeaderNames(container: Option<Container>): (r: Result<(string, string), Thrown>)
    ensures container.None? ==> r == Ok((DEFAULT_TOKEN_HEADER, DEFAULT_SERVICE_HEADER))
    ensures container.Some? && container.value.getParameter(SERVICE_HEADER_PARAMETER).Ok?
            && !Empty(Str(container.value.getParameter(SERVICE_HEADER_PARAMETER).value))
            && container.value.getParameter(TOKEN_HEADER_PARAMETER).Err?
            && container.value.getParameter(TOKEN_HEADER_PARAMETER).error == InvalidArgument
            ==> r == Ok((container.value.getParameter(SERVICE_HEADER_PARAMETER).value, DEFAULT_SERVICE_HEADER))
  {
    PickNames(container, SERVICE_HEADER_PARAMETER, TOKEN_HEADER_PARAMETER)
  }

  /**
   * The header names as the parameter names say they should be chosen: the
   * token header name from `token_header`, the service header name from
   * `service_header`.
   */
  function HeaderNamesIntended(container: Option<Container>): (r: Result<(string, string), Thrown>)
    ensures container.None? ==> r == Ok((DEFAULT_TOKEN_HEADER, DEFAULT_SERVICE_HEADER))
    ensures container.Some? && container.value.getParameter(TOKEN_HEADER_PARAMETER).Ok?
            && !Empty(Str(container.value.getParameter(TOKEN_HEADER_PARAMETER).value))
            && (container.value.getParameter(SERVICE_HEADER_PARAMETER).Ok?
                || container.value.getParameter(SERVICE_HEADER_PARAMETER) == Err(InvalidArgument))
            ==> r.Ok? && r.value.0 == container.value.getParameter(TOKEN_HEADER_PARAMETER).value
  {
    PickNames(container, TOKEN_HEADER_PARAMETER, SERVICE_HEADER_PARAMETER)
  }

  /**
   * As written, configuring both header names makes the gate read the token
   * from the header configured as the service header and the service name
   * from the header configured as the token header. The corrected choice
   * reads each from its own.
   */
  lemma SwappedHeaderParameters(c: Container, tokenHeader: string, serviceHeader: string)
    requires c.getParameter(TOKEN_HEADER_PARAMETER) == Ok(tokenHeader) && !Empty(Str(tokenHeader))
    requires c.getParameter(SERVICE_HEADER_PARAMETER) == Ok(serviceHeader) && !Empty(Str(serviceHeader))
    ensures HeaderNames(Some(c)) == Ok((serviceHeader, tokenHeader))
    ensures HeaderNamesIntended(Some(c)) == Ok((tokenHeader, serviceHeader))
  {
  }

  /** `jsonError($error, $code = 200, $headers = [])`: an `error` payload, status 200 unless told. */
  function JsonError(error: Value, code: int := 200, headers: map<string, string> := map[]): (r: JsonResponse)
    ensures r.content.Arr? && r.content.entries.Keys == {"error"} && r.content.entries["error"] == error
    ensures r.status == code && r.headers == headers
  {
    JsonResponse(Arr(map["error" := error]), code, headers)
  }

  /** `authFailed()`: the canned 403 rejection. */
  function AuthFailed(): (r: JsonResponse)
    ensures r.status == FORBIDDEN_STATUS
    ensures r.content == Arr(map["error" := Str(AUTH_FAILED)]) && r.headers == map[]
  {
    JsonError(Str(AUTH_FAILED), FORBIDDEN_STATUS)
  }

  /** The controller's state: its verifier and its container, both possibly unset. */
  class ServiceController {
    var verifier: Option<Verifier>
    var container: Option<Container>

    constructor ()
      ensures verifier.None? && container.None?
    {
      verifier := None;
      container := None;
    }

    method SetVerifier(verifier: Verifier)
      modifies this`verifier
      ensures this.verifier == Some(verifier)
    {
      this.verifier := Some(verifier);
    }

    method SetContainer(container: Option<Container>)
      modifies this`container
      ensures this.container == container
    {
      this.container := container;
    }

    /**
     * `checkAuth($request)`: the verifier's verdict on the two headers, with a
     * VerificationException read as false. Container exceptions other than
     * InvalidArgument and verifier exceptions other than VerificationFailed
     * leave the gate.
     */
    function CheckAuth(headers: map<string, string>): (r: Result<bool, Thrown>)
      reads this
      ensures r == Ok(true) ==>
                HeaderNames(container).Ok? && verifier.Some?
                && verifier.value.verify(Header(headers, HeaderNames(container).value.0),
                                         Header(headers, HeaderNames(container).value.1)) == Ok(true)
      ensures r.Err? && HeaderNames(container).Ok? ==> r.error != VerificationFailed
      ensures HeaderNames(container).Err? ==> r == Err(HeaderNames(container).error)
      ensures HeaderNames(container).Ok? && verifier.None? ==> r == Err(NullVerifier)
      ensures HeaderNames(container).Ok? && verifier.Some? ==>
                var verdict := verifier.value.verify(Header(headers, HeaderNames(container).value.0),
                                                     Header(headers, HeaderNames(container).value.1));
                (verdict.Ok? ==> r == verdict)
                && (verdict == Err(VerificationFailed) ==> r == Ok(false))
                && (verdict.Err? && verdict.error != VerificationFailed ==> r == verdict)
    {
      match HeaderNames(container)
      case Err(e) => Err(e)
      case Ok((tokenHeader, serviceHeader)) =>
        var token := Header(headers, tokenHeader);
        var service := Header(headers, serviceHeader);
        match verifier
        case None => Err(NullVerifier)
        case Some(v) =>
          match v.verify(token, service)
          case Ok(result) => Ok(result)
          case Err(e) => if e == VerificationFailed then Ok(false) else Err(e)
    }
  }
}

=== FILE: wrappers.dfy ===
/** Option and Result, used for PHP's null and for exceptions that leave a call. */
module Wrappers {

  datatype Option<+T> = None | Some(value: T)

  datatype Result<+T, +E> = Ok(value: T) | Err(error: E)
}
